=== FILE: README.md ===
# Meditation app session controllers, modelled in Dafny

The meditation app has two screens with small integer state machines in them.

- The **breathing exercise** controller runs a chosen pattern. Box breathing is 4-4-4-4 seconds and 4-7-8 breathing is 4-7-8-0 seconds. The phases are inhale, hold, exhale and hold-after-exhale, and the controller counts repetitions until the configured number is done.
- The **meditation** controller counts a duration down to zero. At the end it sends one save request to the health store and resets to 30 minutes. The duration comes from preset buttons, a clamped stepper or free text.

The project models both controllers and the mm:ss clock formatter:

| file | module | what it holds |
|---|---|---|
| `option.dfy` | `Options` | an optional value, for Swift optionals |
| `breathing_pattern.dfy` | `BreathingPattern` | the pattern catalogue and phase instructions: pure functions over two enums |
| `breathing_session.dfy` | `BreathingSession` | the breathing controller's transitions as functions on a `Session` value, plus the lemmas about whole sessions |
| `breathing_controller.dfy` | `BreathingController` | class `BreathingExercise`, with the controller's fields and imperative methods |
| `timer_display.dfy` | `TimerDisplay` | the clock text: Swift's truncating `/` and `%`, `%02d` padding and the read-back |
| `meditation_session.dfy` | `MeditationSession` | the meditation controller's transitions as functions on a `Meditation` value, plus lemmas |
| `meditation_controller.dfy` | `MeditationController` | class `MeditationScreen`, with the controller's fields and imperative methods |

Each class method changes its fields in place. Its `ensures` clause ties the new state to a function of the old state in the matching `…Session` module. The two exceptions are `UpdateTimerDisplay`, whose label is `TimerDisplay.Format` of the remaining time, and `SaveMeditationToHealth`, which appends one entry to the save log. The session functions `StartPhase`, `CompleteBreathing` and `RepetitionsChanged` have no contract of their own: they are the state changes of the class methods of the same names, whose rows state them. The event handlers (the constructors, the buttons, the segmented control, the stepper, the text field and the timer callbacks `Tick` and `UpdateTimer`) also keep the class invariant `Valid()`. The internal helpers they call are stated only by the state they produce, because the invariant may be broken while a handler is part-way through: `UpdateBreathingType`, `StartPhase`, `NextPhase`, `CompleteBreathing`, `UpdateTimerDisplay` and `SaveMeditationToHealth`. The lemmas about whole sessions are stated on the `…Session` functions.

Platform services are abstracted as follows:

- The platform timer becomes a `timerScheduled` flag.
- `Ticks(s, n)` stands for `n` seconds passing: the timer callback runs once a second, but only while a timer is scheduled.
- The recorded start `Date` becomes a flag that says whether a start was recorded.
- The health store becomes a ghost log of requested save durations (`healthSaves`).
- The breathing completion closure becomes ghost counters. `completions` counts calls of the completion routine. `onCompleteRequests` counts the skip button's direct calls of the closure.

The model follows the code as written, including these behaviours:

- **Reported meditation duration.** A natural completion reports `1800 - timeRemaining` seconds (MeditationApp/MeditationViewController.swift:388), where the comment on that line says the actual duration is meant. Completion happens at `timeRemaining == 0`, so a session reports 1800 seconds whatever its configured length. A 5-minute preset also reports 1800 seconds (`MeditationSession.SessionSavesOnce`).
- **Stopping a meditation session.** Stopping does not clear the recorded start. It only stops the countdown, as a pause.
- **Repetition bounds.** The controller does not clamp or reject the repetition count. Only the stepper widget limits it to 10..30. The constructor accepts any integer. A count below one still runs one full cycle, because the count is checked only after the increment (`BreathingSession.Target`).
- **Very large typed durations.** `%02d` reads each argument as a 32-bit C int, so minutes of 2^31 or more show their low 32 bits: 3000000000 typed minutes show as -1294967296 minutes (`TimerDisplay.WideMinutesWrap`).
- **Editing the duration while running.** The duration text field and the preset buttons are not blocked while a meditation session runs. Setting 0 minutes mid-session makes the next tick complete the session, and it reports 1801 seconds (`MeditationSession.EditWhileRunning`).

## Model

| member | source | states |
|---|---|---|
| `BreathingPattern.PhaseDuration` | MeditationApp/BreathingExerciseViewController.swift:7-33 | every phase duration of every pattern is non-negative, and the only zero is the 4-7-8 hold after exhaling |
| `BreathingPattern.Successor` | MeditationApp/BreathingExerciseViewController.swift:444-480 | the definition is the phase order inhale → hold → exhale → hold-after-exhale; the contract states that every successor has positive length and that a phase closes the cycle exactly when it is the hold after exhaling, or exhale when that hold lasts zero seconds |
| `BreathingPattern.PatternTable` | MeditationApp/BreathingExerciseViewController.swift:7-33 | box is 4/4/4/4 (16 s a cycle) and 4-7-8 is 4/7/8/0 (19 s a cycle), with their names and descriptions |
| `BreathingPattern.InstructionTable` | MeditationApp/BreathingExerciseViewController.swift:56-63 | inhale reads "Breathe In", exhale "Breathe Out", and both holds "Hold" |
| `BreathingSession.Initial` | MeditationApp/BreathingExerciseViewController.swift:215-230 | a new controller whose view has loaded is idle with no timer, has the given pattern and repetition count, repetition 0, the inhale phase with that pattern's inhale duration, and zero completions and closure calls; it satisfies the invariant |
| `BreathingSession.Start` | MeditationApp/BreathingExerciseViewController.swift:393-408 | starting while active changes nothing; starting from idle makes the session active with a timer, resets it to repetition 0 and the inhale phase with the pattern's inhale duration, and keeps the pattern, the repetition count and the counters; from a valid idle state the result is valid |
| `BreathingSession.Stop` | MeditationApp/BreathingExerciseViewController.swift:410-413 | after stopping, the session is inactive with no timer, whatever the state before; repetition, phase, phase time, pattern, repetition count and counters are kept |
| `BreathingSession.Skip` | MeditationApp/BreathingExerciseViewController.swift:375-377 | skipping leaves a valid inactive session with no timer, adds exactly one call of the completion closure and no completion, and keeps repetition, phase, phase time, pattern and repetition count |
| `BreathingSession.BreathingTypeChanged` | MeditationApp/BreathingExerciseViewController.swift:353-359 | segment 0 selects box breathing and any other segment 4-7-8; the session is always left inactive; an idle session goes back to inhale with the new pattern's inhale duration, while an active one keeps its phase and phase time; repetition and counters are kept, and the invariant is kept |
| `BreathingSession.StartButton` | MeditationApp/BreathingExerciseViewController.swift:367-373 | an active session stops with no timer, keeping repetition, phase and phase time; an idle one starts with a timer at repetition 0 and the inhale phase with the pattern's inhale duration; pattern, repetition count and both counters are kept either way; from a valid state the result is valid |
| `BreathingSession.UpdateBreathingType` | MeditationApp/BreathingExerciseViewController.swift:384-391 | an active session is unchanged; an idle one moves to inhale with its pattern's inhale duration and nothing else changes; the invariant is kept |
| `BreathingSession.CompleteRepetition` | MeditationApp/BreathingExerciseViewController.swift:457-479 | adds one repetition; at or past the configured count the session stops, with no timer and one more completion; below it the session continues at inhale with the inhale duration and no completion |
| `BreathingSession.NextPhase` | MeditationApp/BreathingExerciseViewController.swift:441-483 | pattern, repetition count and closure calls are kept; the repetition count rises by one exactly when the phase closes the cycle; at most one completion is added, and an active session stays active exactly when none is; a session left active has a timer and a positive full phase duration |
| `BreathingSession.Tick` | MeditationApp/BreathingExerciseViewController.swift:430-438 | an inactive session is unchanged; with more than one second left only the phase time drops by one; the invariant, the pattern and the repetition count are kept |
| `BreathingSession.PhaseOrder` | MeditationApp/BreathingExerciseViewController.swift:441-483 | at phase expiry the controller moves to `Successor` with that phase's full duration; a cycle-closing phase adds exactly one repetition and then either completes (inactive, timer cancelled, one completion, phase kept) or restarts at inhale |
| `BreathingSession.TickProgress` | MeditationApp/BreathingExerciseViewController.swift:430-438 | a tick of an active session keeps the invariant and lowers the seconds left in the session by exactly one; the tick that uses the last second completes the session once, with all repetitions counted |
| `BreathingSession.Countdown` | MeditationApp/BreathingExerciseViewController.swift:430-486 | n seconds of an active session: it stays active with `TicksLeft - n` to go while n < TicksLeft; from then on it is stopped, has completed exactly once and has counted exactly `max(R,1)` repetitions |
| `BreathingSession.StartTicksLeft` | MeditationApp/BreathingExerciseViewController.swift:393-399 | a session started from idle has exactly `max(R,1) × cycle length` seconds to run |
| `BreathingSession.SessionLength` | MeditationApp/BreathingExerciseViewController.swift:393-486 | from start, a session of R repetitions is active for exactly `max(R,1) × (inhale+hold+exhale+holdAfterExhale)` ticks (16R for box, 19R for 4-7-8), completes exactly once, never counts past `max(R,1)` and ends with exactly that count |
| `BreathingSession.RepetitionBoundary` | MeditationApp/BreathingExerciseViewController.swift:457-479 | after k whole cycles (k short of the target) the session is back at inhale with its full duration and k repetitions counted; nothing else has changed |
| `BreathingSession.StopIsFinal` | MeditationApp/BreathingExerciseViewController.swift:410-413 | stopping is idempotent, and after stop or skip no number of stray ticks changes anything |
| `BreathingController.BreathingExercise.constructor` | MeditationApp/BreathingExerciseViewController.swift:215-230 | construction followed by loading the view gives the fields of `BreathingSession.Initial`, which satisfies the invariant |
| `BreathingController.BreathingExercise.BreathingTypeChanged` | MeditationApp/BreathingExerciseViewController.swift:353-359 | segment 0 selects box and any other segment 4-7-8; the phase resets to inhale when idle; an active session is stopped |
| `BreathingController.BreathingExercise.RepetitionsChanged` | MeditationApp/BreathingExerciseViewController.swift:361-365 | stores the stepper's value (10..30); nothing else changes |
| `BreathingController.BreathingExercise.StartButtonTapped` | MeditationApp/BreathingExerciseViewController.swift:367-373 | toggles: stops an active session, starts an idle one |
| `BreathingController.BreathingExercise.SkipButtonTapped` | MeditationApp/BreathingExerciseViewController.swift:375-381 | stops the session and calls the completion closure once |
| `BreathingController.BreathingExercise.UpdateBreathingType` | MeditationApp/BreathingExerciseViewController.swift:384-391 | when idle, the phase becomes inhale with the pattern's inhale duration; when active, nothing changes |
| `BreathingController.BreathingExercise.StartBreathing` | MeditationApp/BreathingExerciseViewController.swift:393-408 | does nothing when active; otherwise activates, resets the repetition count to 0 and the phase to inhale with its duration, and schedules one timer |
| `BreathingController.BreathingExercise.StopBreathing` | MeditationApp/BreathingExerciseViewController.swift:410-422 | clears the active flag and the timer; repetition, phase and phase time are unchanged |
| `BreathingController.BreathingExercise.StartPhase` | MeditationApp/BreathingExerciseViewController.swift:424-439 | schedules the phase timer only for an active session |
| `BreathingController.BreathingExercise.Tick` | MeditationApp/BreathingExerciseViewController.swift:430-438 | an inactive tick changes nothing; an active tick lowers the phase time by exactly 1 and runs the phase transition only when it reaches ≤ 0; the invariant is kept |
| `BreathingController.BreathingExercise.NextPhase` | MeditationApp/BreathingExerciseViewController.swift:441-483 | cancels the timer, then performs the phase transition (see `BreathingSession.PhaseOrder`) |
| `BreathingController.BreathingExercise.CompleteBreathing` | MeditationApp/BreathingExerciseViewController.swift:485-486 | stops the session and records one completion |
| `TimerDisplay.TruncDiv` | MeditationApp/MeditationViewController.swift:378 | Swift's integer division rounds toward zero: for a ≥ 0 the remainder `a - b·q` lies in [0, b), and for a < 0 it lies in (-b, 0] |
| `TimerDisplay.TruncRem` | MeditationApp/MeditationViewController.swift:379 | the remainder has the dividend's sign and magnitude below 60, and `a == 60·q + r` |
| `TimerDisplay.AsCInt` | MeditationApp/MeditationViewController.swift:380 | what `%d` reads: a value in [-2^31, 2^31) that agrees with the argument modulo 2^32, and equals it when it already fits |
| `TimerDisplay.Decimal` | MeditationApp/MeditationViewController.swift:380 | decimal digits of a natural number: one digit below 10, two digits from 10 to 99, and no leading zero |
| `TimerDisplay.DecimalValue` | MeditationApp/MeditationViewController.swift:380 | the decimal digits read back as the same number |
| `TimerDisplay.Pad2` | MeditationApp/MeditationViewController.swift:380 | `%02d`: at least two characters; a non-negative number prints as digits that read back as it; exactly two digits for 0..99; a negative number prints with a leading minus (the digits after it, the two-character length for -9..-1 and the absence of leading zeros are stated by `TimerDisplay.Pad2Digits`) |
| `TimerDisplay.Pad2Digits` | MeditationApp/MeditationViewController.swift:380 | `%02d` of a negative number is '-' followed by digits that read back as its magnitude, exactly two characters for -9..-1 ("-5", not "-05"); numbers of two or more digits, either sign, have no leading zero |
| `TimerDisplay.Format` | MeditationApp/MeditationViewController.swift:377-381 | the label has at least five characters; for 0 ≤ t < 6000 it is exactly two digits, ':' and two digits |
| `TimerDisplay.FormatRoundTrip` | MeditationApp/MeditationViewController.swift:377-381 | for 0 ≤ t < 60·2^31 (minutes that fit a C int) the label is minutes, ':' and two second digits; it reads back as `60·MM + SS == t`; it is 5 characters "MM:SS" exactly when t < 6000 |
| `TimerDisplay.NegativeDisplay` | MeditationApp/MeditationViewController.swift:377-381 | negative times from free-text entry show as, e.g., "00:-5", "-5:00" and "-1:-5" |
| `TimerDisplay.WideMinutesWrap` | MeditationApp/MeditationViewController.swift:377-381 | 3000000000 typed minutes show as -1294967296 minutes followed by ":00" |
| `MeditationSession.Initial` | MeditationApp/MeditationViewController.swift:8-12 | the screen starts idle with no timer, 1800 s, no recorded start, "30" in the duration field and no saves |
| `MeditationSession.StartButtonTapped` | MeditationApp/MeditationViewController.swift:289-295 | a running session stops with no timer and keeps its recorded start; an idle one with time left starts, records the start and schedules the timer; an idle one without time left is unchanged; time, field and saves are unchanged; the invariant is kept |
| `MeditationSession.StartTimer` | MeditationApp/MeditationViewController.swift:346-357 | does nothing unless time remains; otherwise it runs, records the start and schedules the timer with the time and the field unchanged; never saves |
| `MeditationSession.StopTimer` | MeditationApp/MeditationViewController.swift:359-366 | a pause: not running, no timer, time, field and recorded start kept, no save |
| `MeditationSession.TimerCompleted` | MeditationApp/MeditationViewController.swift:383-402 | stops; adds exactly one save of `1800 - timeRemaining` when a start is recorded, none otherwise; resets to 1800 s with "30" in the field and no recorded start |
| `MeditationSession.UpdateTimer` | MeditationApp/MeditationViewController.swift:368-375 | while more than one second is left only the time drops by one; otherwise the session completes: stopped, no timer, no recorded start, back to 1800 s with "30" in the field, with one save of `1800 - (t - 1)` appended exactly when a start was recorded; the invariant is kept |
| `MeditationSession.PresetButtonTapped` | MeditationApp/MeditationViewController.swift:297-316 | the time becomes one of 300, 600, 1200 or 1800 s, 60 × the minutes put in the field; nothing else changes |
| `MeditationSession.DurationTextFieldChanged` | MeditationApp/MeditationViewController.swift:318-323 | parsed text sets the time to 60 × the minutes, unclamped; unparsable text leaves the time alone |
| `MeditationSession.StepperTapped` | MeditationApp/MeditationViewController.swift:325-333 | with a parsable field the time lands in [60, 3600] as whole minutes: one minute more than the field for 0..59, 3600 s from 60 up, 60 s below 0; without one, nothing changes |
| `MeditationSession.Countdown` | MeditationApp/MeditationViewController.swift:368-402 | a running session with t ≥ 1 left has `t - n` left after n < t ticks with nothing saved; after t ticks it has completed with exactly one 1800 s save, reset, and its timer is cancelled |
| `MeditationSession.SessionSavesOnce` | MeditationApp/MeditationViewController.swift:346-402 | from start, the session runs for exactly the set time, then makes exactly one save of 1800 s and accepts a fresh start |
| `MeditationSession.TickSaves` | MeditationApp/MeditationViewController.swift:368-375 | a tick lowers the time by exactly 1; at ≤ 0 it completes and saves once, because a running session always has a recorded start |
| `MeditationSession.StopIsFinal` | MeditationApp/MeditationViewController.swift:359-366 | stopping is idempotent and never saves; no tick is delivered once the timer is invalidated, so nothing changes afterwards (the tick routine itself has no running guard) |
| `MeditationSession.OnlyCompletionSaves` | MeditationApp/MeditationViewController.swift:289-333 | the start button and the three duration inputs never add a save |
| `MeditationSession.EditWhileRunning` | MeditationApp/MeditationViewController.swift:318-323 | setting 0 minutes mid-session makes the next tick complete and report 1801 s |
| `MeditationController.MeditationScreen.constructor` | MeditationApp/MeditationViewController.swift:144-150 | the initial state, with the clock label showing it |
| `MeditationController.MeditationScreen.StartButtonTapped` | MeditationApp/MeditationViewController.swift:289-295 | toggles between stopping and starting according to the running flag |
| `MeditationController.MeditationScreen.PresetButtonTapped` | MeditationApp/MeditationViewController.swift:297-316 | sets the preset duration and updates the clock label |
| `MeditationController.MeditationScreen.DurationTextFieldChanged` | MeditationApp/MeditationViewController.swift:318-323 | sets the typed duration and updates the clock label |
| `MeditationController.MeditationScreen.StepperTapped` | MeditationApp/MeditationViewController.swift:325-333 | sets `max(1, min(60, minutes + 1))` minutes and updates the clock label |
| `MeditationController.MeditationScreen.StartTimer` | MeditationApp/MeditationViewController.swift:346-357 | follows `MeditationSession.StartTimer` and keeps the invariant |
| `MeditationController.MeditationScreen.StopTimer` | MeditationApp/MeditationViewController.swift:359-366 | follows `MeditationSession.StopTimer` and keeps the invariant |
| `MeditationController.MeditationScreen.UpdateTimer` | MeditationApp/MeditationViewController.swift:368-375 | one second off, the label updated, completion when the time is ≤ 0 |
| `MeditationController.MeditationScreen.UpdateTimerDisplay` | MeditationApp/MeditationViewController.swift:377-381 | the clock label becomes `Format(timeRemaining)` |
| `MeditationController.MeditationScreen.TimerCompleted` | MeditationApp/MeditationViewController.swift:383-402 | follows `MeditationSession.TimerCompleted`; the label shows 30:00 afterwards |
| `MeditationController.MeditationScreen.SaveMeditationToHealth` | MeditationApp/MeditationViewController.swift:415-416 | appends exactly one save request with the given duration to the log |

## Left out

- User interface: layout, colours, fonts, button titles and enabled flags, alerts, dismissal, the circle animations (`animatePhase`, `resetCircle`), and the breathing labels' text.
- The platform timer's scheduling and the weak capture of the controller. A scheduled timer is a flag, and seconds passing are explicit `Tick`/`UpdateTimer` calls.
- Wall-clock time: the recorded start `Date` is only "recorded or not".
- The health store wrapper: authorization, the sample query, the floating-point sum of today's minutes, and the success or failure callback of a save. The save is a logged request.
- Parsing the text field with `Int(text)`. The parsed value, or its absence, is an input. The model assumes that the text the controller writes back (`"\(minutes)"`) parses to the same number.
- The completion closure call inside the completion alert's OK handler. It depends on the user tapping OK, so only the completion routine's call is counted. Dismissal by `viewWillDisappear` is a plain stop and is not modelled separately.
- The unused audio player and the authorization logging.
- Swift's 64-bit `Int` traps on overflow, for example `minutes * 60` for a typed number beyond ±1.5·10^17. Integers here are unbounded, so that crash is not modelled.
- `BreathingSession.Skip`: counts a call of the completion closure even though the optional closure may be nil. The only place that creates the breathing controller passes a closure (MeditationApp/MeditationViewController.swift:336).
- `BreathingController.BreathingExercise.StartPhase` requires that no timer is live. Both of its callers guarantee this: the start path only runs while inactive, and the phase transition first invalidates the old timer. The model does not cover the leaked second timer that would appear if this did not hold.
- `MeditationController.MeditationScreen.StartTimer` requires that no session is running. Its only caller, the start button, guarantees this. Starting twice would leave an orphaned live timer, which the model does not represent.
- `BreathingController.BreathingExercise.RepetitionsChanged` requires an idle session and a value in 10..30. The stepper can only produce such a value, and it is disabled while a session runs.

=== FILE: breathing_controller.dfy ===
/** The breathing exercise screen's controller as an object: its fields are updated in
    place by the button, stepper and segmented-control actions and by the one-second
    phase timer. Each method is proved to move the fields exactly as the matching
    function of BreathingSession moves a Session value, and to keep its invariant. */
module BreathingController {
  import opened BreathingPattern
  import S = BreathingSession

  class BreathingExercise {
    var breathingType: BreathingType
    var repetitions: int
    var currentRepetition: int
    var currentPhase: BreathingPhase
    /** Whether a live repeating phase timer exists. */
    var phaseTimerScheduled: bool
    var phaseTimeRemaining: int
    var isBreathingActive: bool
    /** Calls of the completion routine (the completion alert). */
    ghost var completions: nat
    /** Calls of the completion closure made directly by the skip button. */
    ghost var onCompleteRequests: nat

    ghost function State(): S.Session
      reads this
    {
      S.Session(breathingType, repetitions, currentRepetition, currentPhase,
                phaseTimeRemaining, isBreathingActive, phaseTimerScheduled,
                completions, onCompleteRequests)
    }

    ghost predicate Valid()
      reads this
    {
      S.Valid(State())
    }

    /** Construction followed by loading the view, which shows the pattern. */
    constructor (breathingType: BreathingType, repetitions: int)
      ensures Valid() && State() == S.Initial(breathingType, repetitions)
    {
      this.breathingType := breathingType;
      this.repetitions := repetitions;
      currentRepetition := 0;
      currentPhase := Inhale;
      phaseTimerScheduled := false;
      phaseTimeRemaining := 0;
      isBreathingActive := false;
      completions := 0;
      onCompleteRequests := 0;
      new;
      UpdateBreathingType();
    }

    method BreathingTypeChanged(segment: int)
      requires Valid()
      modifies this
      ensures Valid() && State() == S.BreathingTypeChanged(old(State()), segment)
    {
      breathingType := if segment == 0 then BoxBreathing else FourSevenEight;
      UpdateBreathingType();
      if isBreathingActive {
        StopBreathing();
      }
    }

    /** The stepper's value lies between its minimum 10 and maximum 30, and the
        stepper is disabled while a session runs. */
    method RepetitionsChanged(value: int)
      requires Valid() && !isBreathingActive
      requires 10 <= value <= 30
      modifies this
      ensures Valid() && State() == S.RepetitionsChanged(old(State()), value)
    {
      repetitions := value;
    }

    method StartButtonTapped()
      requires Valid()
      modifies this
      ensures Valid() && State() == S.StartButton(old(State()))
    {
      if isBreathingActive {
        StopBreathing();
      } else {
        StartBreathing();
      }
    }

    method SkipButtonTapped()
      modifies this
      ensures Valid() && State() == S.Skip(old(State()))
    {
      StopBreathing();
      onCompleteRequests := onCompleteRequests + 1;
    }

    method UpdateBreathingType()
      modifies this
      ensures State() == S.UpdateBreathingType(old(State()))
    {
      if !isBreathingActive {
        currentPhase := Inhale;
        phaseTimeRemaining := breathingType.InhaleDuration();
      }
    }

    method StartBreathing()
      requires Valid()
      modifies this
      ensures Valid() && State() == S.Start(old(State()))
    {
      if isBreathingActive {
        return;
      }
      isBreathingActive := true;
      currentRepetition := 0;
      currentPhase := Inhale;
      phaseTimeRemaining := breathingType.InhaleDuration();
      StartPhase();
    }

    method StopBreathing()
      modifies this
      ensures Valid() && State() == S.Stop(old(State()))
    {
      isBreathingActive := false;
      phaseTimerScheduled := false;
    }

    /** Schedules the phase timer. Both callers reach it with no live timer. */
    method StartPhase()
      requires !phaseTimerScheduled
      modifies this
      ensures State() == S.StartPhase(old(State()))
    {
      if !isBreathingActive {
        return;
      }
      phaseTimerScheduled := true;
    }

    /** The body of the repeating one-second timer callback. */
    method Tick()
      requires Valid()
      modifies this
      ensures Valid() && State() == S.Tick(old(State()))
    {
      if !isBreathingActive {
        return;
      }
      S.TickProgress(State());
      phaseTimeRemaining := phaseTimeRemaining - 1;
      if phaseTimeRemaining <= 0 {
        NextPhase();
      }
    }

    method NextPhase()
      modifies this
      ensures State() == S.NextPhase(old(State()))
    {
      phaseTimerScheduled := false;
      match currentPhase {
        case Inhale =>
          currentPhase := Hold;
          phaseTimeRemaining := breathingType.HoldDuration();
        case Hold =>
          currentPhase := Exhale;
          phaseTimeRemaining := breathingType.ExhaleDuration();
        case Exhale =>
          if breathingType.HoldAfterExhaleDuration() > 0 {
            currentPhase := HoldAfterExhale;
            phaseTimeRemaining := breathingType.HoldAfterExhaleDuration();
          } else {
            currentRepetition := currentRepetition + 1;
            if currentRepetition >= repetitions {
              CompleteBreathing();
              return;
            } else {
              currentPhase := Inhale;
              phaseTimeRemaining := breathingType.InhaleDuration();
            }
          }
        case HoldAfterExhale =>
          currentRepetition := currentRepetition + 1;
          if currentRepetition >= repetitions {
            CompleteBreathing();
            return;
          } else {
            currentPhase := Inhale;
            phaseTimeRemaining := breathingType.InhaleDuration();
          }
      }
      StartPhase();
    }

    method CompleteBreathing()
      modifies this
      ensures State() == S.CompleteBreathing(old(State()))
    {
      StopBreathing();
      completions := completions + 1;
    }
  }
}

=== FILE: breathing_pattern.dfy ===
/** The closed catalogue of breathing patterns and the four phases of a breathing
    cycle, with the per-phase durations in whole seconds and the instruction text
    shown for each phase. */
module BreathingPattern {
  import opened Options

  /** The two built-in patterns: box breathing (4-4-4-4) and 4-7-8 breathing. */
  datatype BreathingType = BoxBreathing | FourSevenEight {

    function InhaleDuration(): int {
      match this
      case BoxBreathing => 4
      case FourSevenEight => 4
    }

    function HoldDuration(): int {
      match this
      case BoxBreathing => 4
      case FourSevenEight => 7
    }

    function ExhaleDuration(): int {
      match this
      case BoxBreathing => 4
      case FourSevenEight => 8
    }

    function HoldAfterExhaleDuration(): int {
      match this
      case BoxBreathing => 4
      case FourSevenEight => 0
    }

    function Name(): string {
      match this
      case BoxBreathing => "Box Breathing"
      case FourSevenEight => "4-7-8 Breathing"
    }

    function Description(): string {
      match this
      case BoxBreathing => "Inhale 4 • Hold 4 • Exhale 4 • Hold 4"
      case FourSevenEight => "Inhale 4 • Hold 7 • Exhale 8"
    }

    /** Seconds in one full repetition of the pattern. */
    function CycleLength(): int {
      InhaleDuration() + HoldDuration() + ExhaleDuration() + HoldAfterExhaleDuration()
    }
  }

  /** The four phases of a cycle, in the order the controller visits them. */
  datatype BreathingPhase = Inhale | Hold | Exhale | HoldAfterExhale {

    function Instruction(): string {
      match this
      case Inhale => "Breathe In"
      case Hold => "Hold"
      case Exhale => "Breathe Out"
      case HoldAfterExhale => "Hold"
    }
  }

  /** The duration a pattern gives to a phase, read from the per-pattern properties.
      The only phase that lasts zero seconds is the hold after exhaling in 4-7-8. */
  function PhaseDuration(t: BreathingType, p: BreathingPhase): (d: int)
    ensures d >= 0
    ensures d == 0 <==> (t == FourSevenEight && p == HoldAfterExhale)
  {
    match p
    case Inhale => t.InhaleDuration()
    case Hold => t.HoldDuration()
    case Exhale => t.ExhaleDuration()
    case HoldAfterExhale => t.HoldAfterExhaleDuration()
  }

  /** The phase the controller moves to when `p` runs out, or None when `p` closes a
      repetition (a zero-length hold after exhaling is skipped). */
  function Successor(t: BreathingType, p: BreathingPhase): (q: Option<BreathingPhase>)
    ensures q.Some? ==> PhaseDuration(t, q.value) > 0
    ensures q.None? <==> (p == HoldAfterExhale || (p == Exhale && PhaseDuration(t, HoldAfterExhale) == 0))
  {
    match p
    case Inhale => Some(Hold)
    case Hold => Some(Exhale)
    case Exhale => if t.HoldAfterExhaleDuration() > 0 then Some(HoldAfterExhale) else None
    case HoldAfterExhale => None
  }

  /** The pattern table: box is 4/4/4/4 (16 seconds a cycle) and 4-7-8 is 4/7/8/0
      (19 seconds a cycle). */
  lemma PatternTable()
    ensures BoxBreathing.InhaleDuration() == 4 && BoxBreathing.HoldDuration() == 4
    ensures BoxBreathing.ExhaleDuration() == 4 && BoxBreathing.HoldAfterExhaleDuration() == 4
    ensures FourSevenEight.InhaleDuration() == 4 && FourSevenEight.HoldDuration() == 7
    ensures FourSevenEight.ExhaleDuration() == 8 && FourSevenEight.HoldAfterExhaleDuration() == 0
    ensures BoxBreathing.CycleLength() == 16 && FourSevenEight.CycleLength() == 19
    ensures BoxBreathing.Name() == "Box Breathing" && FourSevenEight.Name() == "4-7-8 Breathing"
    ensures BoxBreathing.Description() == "Inhale 4 • Hold 4 • Exhale 4 • Hold 4"
    ensures FourSevenEight.Description() == "Inhale 4 • Hold 7 • Exhale 8"
  {
  }

  /** Inhale shows "Breathe In", exhale "Breathe Out", and both holds "Hold"; the
      three texts are distinct. */
  lemma InstructionTable()
    ensures Inhale.Instruction() == "Breathe In" && Exhale.Instruction() == "Breathe Out"
    ensures Hold.Instruction() == HoldAfterExhale.Instruction() == "Hold"
    ensures Inhale.Instruction() != Exhale.Instruction()
    ensures Inhale.Instruction() != Hold.Instruction() && Exhale.Instruction() != Hold.Instruction()
  {
  }
}

=== FILE: breathing_session.dfy ===
/** The breathing exercise controller's state machine, stated on values. Every
    transition of the controller (start, stop, skip, the one-second tick, the phase
    change, a pattern or repetition change) is a function from the old state to the
    new one; the class in BreathingController is proved to follow these functions,
    and the lemmas below say what a whole session does. */
module BreathingSession {
  import opened Options
  import opened BreathingPattern

  /** The controller's fields. `timerScheduled` stands for a live repeating phase
      timer. `completions` counts the calls of the completion routine (the session
      ending on its own) and `onCompleteRequests` the direct calls of the completion
      closure made by the skip button. */
  datatype Session = Session(
    kind: BreathingType,
    repetitions: int,
    currentRepetition: int,
    currentPhase: BreathingPhase,
    phaseTimeRemaining: int,
    active: bool,
    timerScheduled: bool,
    completions: nat,
    onCompleteRequests: nat)

  /** The state right after construction and loading the view: nothing counted, at
      the start of inhaling with the pattern's inhale time on the clock, inactive and
      without a timer. */
  function Initial(kind: BreathingType, repetitions: int): (s: Session)
    ensures Valid(s) && !s.active && !s.timerScheduled
    ensures s.kind == kind && s.repetitions == repetitions && s.currentRepetition == 0
    ensures s.currentPhase == Inhale && s.phaseTimeRemaining == PhaseDuration(kind, Inhale)
    ensures s.completions == 0 && s.onCompleteRequests == 0
  {
    UpdateBreathingType(Session(kind, repetitions, 0, Inhale, 0, false, false, 0, 0))
  }

  /** Repetitions a session runs before it ends: the configured count, except that a
      count below one still runs one cycle (the check comes after the increment). */
  function Target(repetitions: int): int {
    if repetitions < 1 then 1 else repetitions
  }

  /** What holds between transitions: a timer is live exactly while the session is
      active, and an active session is inside a phase of positive length with whole
      seconds left, short of its last repetition. */
  ghost predicate Valid(s: Session) {
    && s.active == s.timerScheduled
    && (s.active ==>
          && 0 <= s.currentRepetition < Target(s.repetitions)
          && 1 <= s.phaseTimeRemaining <= PhaseDuration(s.kind, s.currentPhase))
  }

  /** Schedules the repeating phase timer, but only for an active session. */
  function StartPhase(s: Session): Session {
    if s.active then s.(timerScheduled := true) else s
  }

  /** Starting is ignored while active; otherwise the session becomes active with a
      live timer, no repetitions counted and the full inhale time on the clock. */
  function Start(s: Session): (r: Session)
    ensures s.active ==> r == s
    ensures !s.active ==>
      && r.active && r.timerScheduled
      && r.currentRepetition == 0 && r.currentPhase == Inhale
      && r.phaseTimeRemaining == PhaseDuration(s.kind, Inhale)
      && r.kind == s.kind && r.repetitions == s.repetitions
      && r.completions == s.completions && r.onCompleteRequests == s.onCompleteRequests
    ensures Valid(s) ==> Valid(r) && r.active
  {
    if s.active then s
    else StartPhase(s.(active := true, currentRepetition := 0, currentPhase := Inhale,
                       phaseTimeRemaining := s.kind.InhaleDuration()))
  }

  /** Stopping cancels the timer and leaves everything else for display. */
  function Stop(s: Session): (r: Session)
    ensures !r.active && !r.timerScheduled
    ensures r.currentRepetition == s.currentRepetition && r.currentPhase == s.currentPhase
    ensures r.phaseTimeRemaining == s.phaseTimeRemaining
    ensures r.kind == s.kind && r.repetitions == s.repetitions
    ensures r.completions == s.completions && r.onCompleteRequests == s.onCompleteRequests
    ensures Valid(r)
  {
    s.(active := false, timerScheduled := false)
  }

  /** The start button toggles between starting and stopping. */
  function StartButton(s: Session): (r: Session)
    ensures Valid(s) ==> Valid(r) && r.active == !s.active
    ensures s.active ==>
      && !r.active && !r.timerScheduled
      && r.currentRepetition == s.currentRepetition && r.currentPhase == s.currentPhase
      && r.phaseTimeRemaining == s.phaseTimeRemaining
    ensures !s.active ==>
      && r.active && r.timerScheduled && r.currentRepetition == 0
      && r.currentPhase == Inhale && r.phaseTimeRemaining == PhaseDuration(s.kind, Inhale)
    ensures r.kind == s.kind && r.repetitions == s.repetitions
    ensures r.completions == s.completions && r.onCompleteRequests == s.onCompleteRequests
  {
    if s.active then Stop(s) else Start(s)
  }

  /** Skipping stops the session and calls the completion closure once. */
  function Skip(s: Session): (r: Session)
    ensures Valid(r) && !r.active && !r.timerScheduled
    ensures r.onCompleteRequests == s.onCompleteRequests + 1 && r.completions == s.completions
    ensures r.currentRepetition == s.currentRepetition && r.currentPhase == s.currentPhase
    ensures r.phaseTimeRemaining == s.phaseTimeRemaining
    ensures r.kind == s.kind && r.repetitions == s.repetitions
  {
    var t := Stop(s);
    t.(onCompleteRequests := t.onCompleteRequests + 1)
  }

  /** The completion routine: stop, then the completion alert (counted). */
  function CompleteBreathing(s: Session): Session {
    var t := Stop(s);
    t.(completions := t.completions + 1)
  }

  /** One repetition is done: count it, and either end the session or go back to
      inhaling. */
  function CompleteRepetition(s: Session): (r: Session)
    ensures r.currentRepetition == s.currentRepetition + 1
    ensures r.kind == s.kind && r.repetitions == s.repetitions
    ensures r.onCompleteRequests == s.onCompleteRequests
    ensures r.currentRepetition >= s.repetitions ==>
      !r.active && !r.timerScheduled && r.completions == s.completions + 1
    ensures r.currentRepetition < s.repetitions ==>
      && r.active == s.active && r.completions == s.completions
      && r.currentPhase == Inhale && r.phaseTimeRemaining == PhaseDuration(s.kind, Inhale)
  {
    var t := s.(currentRepetition := s.currentRepetition + 1);
    if t.currentRepetition >= t.repetitions then CompleteBreathing(t)
    else StartPhase(t.(currentPhase := Inhale, phaseTimeRemaining := t.kind.InhaleDuration()))
  }

  /** The phase transition, run when a phase's time is up. The live timer is
      invalidated first; a new one is scheduled for the next phase. */
  function NextPhase(s: Session): (r: Session)
    ensures r.kind == s.kind && r.repetitions == s.repetitions
    ensures r.onCompleteRequests == s.onCompleteRequests
    ensures r.currentRepetition ==
      s.currentRepetition + (if Successor(s.kind, s.currentPhase).None? then 1 else 0)
    ensures r.completions <= s.completions + 1
    ensures s.active ==> (r.active <==> r.completions == s.completions)
    ensures r.active ==> r.timerScheduled && r.phaseTimeRemaining == PhaseDuration(r.kind, r.currentPhase) > 0
  {
    var t := s.(timerScheduled := false);
    match s.currentPhase
    case Inhale => StartPhase(t.(currentPhase := Hold, phaseTimeRemaining := t.kind.HoldDuration()))
    case Hold => StartPhase(t.(currentPhase := Exhale, phaseTimeRemaining := t.kind.ExhaleDuration()))
    case Exhale =>
      if t.kind.HoldAfterExhaleDuration() > 0 then
        StartPhase(t.(currentPhase := HoldAfterExhale, phaseTimeRemaining := t.kind.HoldAfterExhaleDuration()))
      else
        CompleteRepetition(t)
    case HoldAfterExhale => CompleteRepetition(t)
  }

  /** The body of the one-second timer callback: ignored unless the session is active,
      otherwise one second off the phase and a phase change once it reaches zero. */
  function Tick(s: Session): (r: Session)
    ensures !s.active ==> r == s
    ensures s.active && s.phaseTimeRemaining > 1 ==>
      r == s.(phaseTimeRemaining := s.phaseTimeRemaining - 1)
    ensures Valid(s) ==> Valid(r) && r.kind == s.kind && r.repetitions == s.repetitions
  {
    if !s.active then s
    else
      var t := s.(phaseTimeRemaining := s.phaseTimeRemaining - 1);
      if t.phaseTimeRemaining <= 0 then NextPhase(t) else t
  }

  /** The state after `n` seconds: the timer callback runs once a second while a
      timer is scheduled, and nothing happens once none is. */
  function Ticks(s: Session, n: nat): Session
    decreases n
  {
    if n == 0 || !s.timerScheduled then s else Ticks(Tick(s), n - 1)
  }

  /** Choosing a pattern: while idle the display goes back to inhaling with the new
      pattern's inhale time. */
  function UpdateBreathingType(s: Session): (r: Session)
    ensures s.active ==> r == s
    ensures !s.active ==>
      && r.currentPhase == Inhale && r.phaseTimeRemaining == PhaseDuration(s.kind, Inhale)
      && r == s.(currentPhase := Inhale, phaseTimeRemaining := r.phaseTimeRemaining)
    ensures Valid(s) ==> Valid(r)
  {
    if s.active then s
    else s.(currentPhase := Inhale, phaseTimeRemaining := s.kind.InhaleDuration())
  }

  /** The segmented control picks box breathing for segment 0 and 4-7-8 for any
      other segment; a change while active stops the session. */
  function BreathingTypeChanged(s: Session, segment: int): (r: Session)
    ensures r.kind == (if segment == 0 then BoxBreathing else FourSevenEight)
    ensures !r.active
    ensures !s.active ==>
      r.currentPhase == Inhale && r.phaseTimeRemaining == PhaseDuration(r.kind, Inhale)
    ensures s.active ==>
      r.currentPhase == s.currentPhase && r.phaseTimeRemaining == s.phaseTimeRemaining
    ensures r.currentRepetition == s.currentRepetition && r.repetitions == s.repetitions
    ensures r.completions == s.completions && r.onCompleteRequests == s.onCompleteRequests
    ensures Valid(s) ==> Valid(r)
  {
    var t := UpdateBreathingType(s.(kind := if segment == 0 then BoxBreathing else FourSevenEight));
    if t.active then Stop(t) else t
  }

  /** The repetitions stepper stores its value. */
  function RepetitionsChanged(s: Session, value: int): Session {
    s.(repetitions := value)
  }

  /** Seconds still to run before the session completes: what is left of this phase,
      the later phases of this cycle, and the cycles still to come. */
  function TicksLeft(s: Session): int {
    s.phaseTimeRemaining + RestOfCycle(s.kind, s.currentPhase)
      + (Target(s.repetitions) - s.currentRepetition - 1) * s.kind.CycleLength()
  }

  /** Seconds in the phases of a cycle that come after `p`. */
  function RestOfCycle(t: BreathingType, p: BreathingPhase): int {
    match p
    case Inhale => t.HoldDuration() + t.ExhaleDuration() + t.HoldAfterExhaleDuration()
    case Hold => t.ExhaleDuration() + t.HoldAfterExhaleDuration()
    case Exhale => t.HoldAfterExhaleDuration()
    case HoldAfterExhale => 0
  }

  /** The phase order: when a phase runs out, the controller moves to its successor in
      inhale, hold, exhale, hold-after-exhale and loads that phase's full duration;
      when the phase closes a repetition (the hold after exhaling, or exhaling when
      that hold lasts zero seconds) the repetition count rises by exactly one, and the
      session either completes or starts the next cycle at inhale. */
  lemma PhaseOrder(s: Session)
    requires s.active && s.timerScheduled && s.phaseTimeRemaining == 0
    ensures var r := NextPhase(s);
      match Successor(s.kind, s.currentPhase)
      case Some(q) =>
        r == s.(currentPhase := q, phaseTimeRemaining := PhaseDuration(s.kind, q))
      case None =>
        && r.currentRepetition == s.currentRepetition + 1
        && (r.currentRepetition >= s.repetitions ==>
              r == s.(currentRepetition := r.currentRepetition, active := false,
                      timerScheduled := false, completions := s.completions + 1))
        && (r.currentRepetition < s.repetitions ==>
              r == s.(currentRepetition := r.currentRepetition, currentPhase := Inhale,
                      phaseTimeRemaining := PhaseDuration(s.kind, Inhale)))
  {
  }

  /** One tick of an active, well-formed session: the remaining session time drops by
      exactly one, and the tick that uses up the last second completes the session,
      once, with every repetition counted. */
  lemma TickProgress(s: Session)
    requires Valid(s) && s.active
    ensures TicksLeft(s) >= 1
    ensures var r := Tick(s);
      && Valid(r)
      && r.kind == s.kind && r.repetitions == s.repetitions
      && r.onCompleteRequests == s.onCompleteRequests
      && (TicksLeft(s) > 1 ==>
            r.active && TicksLeft(r) == TicksLeft(s) - 1 && r.completions == s.completions)
      && (TicksLeft(s) == 1 ==>
            !r.active && r.completions == s.completions + 1
            && r.currentRepetition == Target(s.repetitions))
  {
  }

  /** Running an active, well-formed session for `n` seconds: it stays active and
      uncompleted while fewer seconds than TicksLeft have passed, and from then on it
      has completed exactly once, having counted all its repetitions. */
  lemma {:induction false} Countdown(s: Session, n: nat)
    requires Valid(s) && s.active
    ensures var r := Ticks(s, n);
      && Valid(r)
      && r.kind == s.kind && r.repetitions == s.repetitions
      && r.onCompleteRequests == s.onCompleteRequests
      && (n < TicksLeft(s) ==>
            r.active && TicksLeft(r) == TicksLeft(s) - n && r.completions == s.completions)
      && (n >= TicksLeft(s) ==>
            !r.active && r.completions == s.completions + 1
            && r.currentRepetition == Target(s.repetitions))
    decreases n
  {
    TickProgress(s);
    if n > 0 {
      var t := Tick(s);
      if t.active {
        Countdown(t, n - 1);
      } else {
        assert Ticks(t, n - 1) == t;
      }
    }
  }

  /** A session started from idle has exactly Target(repetitions) cycles to run. */
  lemma StartTicksLeft(s: Session)
    requires Valid(s) && !s.active
    ensures Start(s).active
    ensures TicksLeft(Start(s)) == Target(s.repetitions) * s.kind.CycleLength()
  {
  }

  /** A session of R repetitions, started from idle, runs for exactly
      max(R, 1) * CycleLength seconds (16R for box, 19R for 4-7-8): it is active
      before that, completes exactly once when that second passes, and the
      repetition count never exceeds max(R, 1) and equals it at the end. */
  lemma SessionLength(s: Session, n: nat)
    requires Valid(s) && !s.active
    ensures var r := Ticks(Start(s), n);
      var total := Target(s.repetitions) * s.kind.CycleLength();
      && (r.active <==> n < total)
      && r.completions == s.completions + (if n < total then 0 else 1)
      && 0 <= r.currentRepetition <= Target(s.repetitions)
      && (n >= total ==> r.currentRepetition == Target(s.repetitions))
  {
    StartTicksLeft(s);
    Countdown(Start(s), n);
  }

  /** Within a well-formed active state, the seconds left determine the position:
      a whole number of cycles left means the start of a cycle. */
  lemma CycleStartAt(s: Session, k: int)
    requires Valid(s) && s.active
    requires TicksLeft(s) == (Target(s.repetitions) - k) * s.kind.CycleLength()
    ensures s.currentRepetition == k && s.currentPhase == Inhale
    ensures s.phaseTimeRemaining == s.kind.InhaleDuration()
  {
  }

  /** The repetition count rises by exactly one per cycle: after k whole cycles (k
      short of the target) the session is back at the start of a cycle with k
      repetitions counted and nothing else changed. */
  lemma RepetitionBoundary(s: Session, k: nat)
    requires Valid(s) && !s.active && k < Target(s.repetitions)
    ensures Ticks(Start(s), k * s.kind.CycleLength()) == Start(s).(currentRepetition := k)
  {
    var c := s.kind.CycleLength();
    StartTicksLeft(s);
    assert k * c < Target(s.repetitions) * c;
    Countdown(Start(s), k * c);
    var r := Ticks(Start(s), k * c);
    assert TicksLeft(r) == (Target(s.repetitions) - k) * c;
    CycleStartAt(r, k);
  }

  /** Stopping is idempotent, and once stopped no stray tick changes anything. */
  lemma {:induction false} StopIsFinal(s: Session, n: nat)
    ensures Stop(Stop(s)) == Stop(s)
    ensures Ticks(Stop(s), n) == Stop(s)
    ensures Ticks(Skip(s), n) == Skip(s)
  {
  }
}

=== FILE: meditation_controller.dfy ===
/** The meditation screen's controller as an object: its fields are updated in place
    by the start button, the preset buttons, the duration text field, the stepper and
    the one-second timer. Each method is proved to move the fields exactly as the
    matching function of MeditationSession moves a Meditation value, and to keep the
    clock label showing the remaining time. */
module MeditationController {
  import opened Options
  import opened TimerDisplay
  import M = MeditationSession

  class MeditationScreen {
    var timeRemaining: int
    var isTimerRunning: bool
    /** Whether a session start time is recorded. */
    var sessionStarted: bool
    /** Whether a live repeating timer exists. */
    var timerScheduled: bool
    /** The duration text field, read as an integer. */
    var durationField: Option<int>
    /** The clock label's text. */
    var timerLabel: string
    /** Durations of the save requests sent to the health store. */
    ghost var healthSaves: seq<int>

    ghost function State(): M.Meditation
      reads this
    {
      M.Meditation(timeRemaining, isTimerRunning, sessionStarted, timerScheduled,
                   durationField, healthSaves)
    }

    /** The clock label shows the remaining time. */
    ghost predicate LabelShowsTime()
      reads this`timerLabel, this`timeRemaining
    {
      timerLabel == Format(timeRemaining)
    }

    ghost predicate Valid()
      reads this
    {
      M.Valid(State()) && LabelShowsTime()
    }

    /** Construction followed by loading the view, which shows the clock. */
    constructor ()
      ensures Valid() && State() == M.Initial()
    {
      timeRemaining := 1800;
      isTimerRunning := false;
      sessionStarted := false;
      timerScheduled := false;
      durationField := Some(30);
      healthSaves := [];
      new;
      UpdateTimerDisplay();
    }

    method StartButtonTapped()
      requires Valid()
      modifies this
      ensures Valid() && State() == M.StartButtonTapped(old(State()))
    {
      if isTimerRunning {
        StopTimer();
      } else {
        StartTimer();
      }
    }

    method PresetButtonTapped(tag: int)
      requires Valid()
      requires 0 <= tag < |M.Presets|
      modifies this
      ensures Valid() && State() == M.PresetButtonTapped(old(State()), tag)
    {
      var selectedMinutes := M.Presets[tag];
      timeRemaining := selectedMinutes * 60;
      durationField := Some(selectedMinutes);
      UpdateTimerDisplay();
    }

    /** `parsed` is the new text read as an integer, None when it does not parse. */
    method DurationTextFieldChanged(parsed: Option<int>)
      requires Valid()
      modifies this
      ensures Valid() && State() == M.DurationTextFieldChanged(old(State()), parsed)
    {
      durationField := parsed;
      if parsed.Some? {
        timeRemaining := parsed.value * 60;
        UpdateTimerDisplay();
      }
    }

    method StepperTapped()
      requires Valid()
      modifies this
      ensures Valid() && State() == M.StepperTapped(old(State()))
    {
      if durationField.Some? {
        var minutes := durationField.value;
        minutes := Max(1, Min(60, minutes + 1));
        durationField := Some(minutes);
        timeRemaining := minutes * 60;
        UpdateTimerDisplay();
      }
    }

    /** Its only caller, the start button, calls it when no session runs. */
    method StartTimer()
      requires Valid() && !isTimerRunning
      modifies this
      ensures Valid() && State() == M.StartTimer(old(State()))
    {
      if timeRemaining <= 0 {
        return;
      }
      isTimerRunning := true;
      sessionStarted := true;
      timerScheduled := true;
    }

    method StopTimer()
      requires Valid()
      modifies this
      ensures Valid() && State() == M.StopTimer(old(State()))
    {
      isTimerRunning := false;
      timerScheduled := false;
    }

    /** The tick, delivered only while the timer is live. */
    method UpdateTimer()
      requires Valid() && timerScheduled
      modifies this
      ensures Valid() && State() == M.UpdateTimer(old(State()))
    {
      timeRemaining := timeRemaining - 1;
      UpdateTimerDisplay();
      if timeRemaining <= 0 {
        TimerCompleted();
      }
    }

    method UpdateTimerDisplay()
      modifies this`timerLabel
      ensures LabelShowsTime() && timerLabel == Format(timeRemaining)
    {
      var minutes := TruncDiv(timeRemaining, 60);
      var seconds := TruncRem(timeRemaining, 60);
      timerLabel := Pad2(AsCInt(minutes)) + ":" + Pad2(AsCInt(seconds));
    }

    method TimerCompleted()
      requires Valid()
      modifies this
      ensures Valid() && State() == M.TimerCompleted(old(State()))
    {
      StopTimer();
      if sessionStarted {
        SaveMeditationToHealth(1800 - timeRemaining);
      }
      ghost var saved := State();
      assert M.TimerCompleted(old(State())) ==
        saved.(timeRemaining := M.DefaultDuration, durationField := Some(30), sessionStarted := false);
      timeRemaining := M.DefaultDuration;
      durationField := Some(30);
      UpdateTimerDisplay();
      sessionStarted := false;
      assert State() == saved.(timeRemaining := M.DefaultDuration, durationField := Some(30),
                               sessionStarted := false);
    }

    /** The save request handed to the health store. */
    method SaveMeditationToHealth(duration: int)
      modifies this`healthSaves
      ensures healthSaves == old(healthSaves) + [duration]
    {
      healthSaves := healthSaves + [duration];
    }
  }

  function Max(a: int, b: int): int {
    if a >= b then a else b
  }

  function Min(a: int, b: int): int {
    if a <= b then a else b
  }
}

=== FILE: meditation_session.dfy ===
/** The meditation screen's countdown, stated on values: the start/stop button, the
    one-second tick, the completion routine with its single health-record save, and
    the three ways of setting the duration. The class in MeditationController is
    proved to follow these functions. */
module MeditationSession {
  import opened Options

  /** The length restored after every completed session: 30 minutes. */
  const DefaultDuration: int := 1800

  /** The preset buttons, in minutes, indexed by the button's tag. */
  const Presets: seq<int> := [5, 10, 20, 30]

  /** The controller's state. `sessionStarted` stands for a recorded start timestamp
      (its value is never inspected), `timerScheduled` for a live repeating timer,
      `durationField` for the duration text field read as an integer (None when it
      does not parse), and `healthSaves` for the durations, in seconds, of the save
      requests sent to the health store, oldest first. */
  datatype Meditation = Meditation(
    timeRemaining: int,
    isTimerRunning: bool,
    sessionStarted: bool,
    timerScheduled: bool,
    durationField: Option<int>,
    healthSaves: seq<int>)

  /** A freshly loaded screen: 30 minutes, idle, no start recorded, "30" in the field. */
  function Initial(): (m: Meditation)
    ensures Valid(m) && !m.isTimerRunning && !m.timerScheduled && !m.sessionStarted
    ensures m.timeRemaining == DefaultDuration && m.durationField == Some(30)
    ensures m.healthSaves == []
  {
    Meditation(DefaultDuration, false, false, false, Some(30), [])
  }

  /** What holds between events: a timer is live exactly while the session runs, and a
      running session has recorded its start. */
  ghost predicate Valid(m: Meditation) {
    && m.isTimerRunning == m.timerScheduled
    && (m.isTimerRunning ==> m.sessionStarted)
  }

  /** Starting is refused unless time remains; otherwise it runs, records the start and
      schedules the timer. */
  function StartTimer(m: Meditation): (r: Meditation)
    ensures m.timeRemaining <= 0 ==> r == m
    ensures m.timeRemaining > 0 ==>
      r.isTimerRunning && r.sessionStarted && r.timerScheduled && r.timeRemaining == m.timeRemaining
    ensures r.durationField == m.durationField
    ensures r.healthSaves == m.healthSaves
    ensures Valid(m) ==> Valid(r)
  {
    if m.timeRemaining <= 0 then m
    else m.(isTimerRunning := true, sessionStarted := true, timerScheduled := true)
  }

  /** Stopping pauses: the remaining time and the recorded start are kept. */
  function StopTimer(m: Meditation): (r: Meditation)
    ensures !r.isTimerRunning && !r.timerScheduled
    ensures r.timeRemaining == m.timeRemaining && r.sessionStarted == m.sessionStarted
    ensures r.durationField == m.durationField
    ensures r.healthSaves == m.healthSaves
    ensures Valid(m) ==> Valid(r)
  {
    m.(isTimerRunning := false, timerScheduled := false)
  }

  /** The start button toggles between stopping and starting. */
  function StartButtonTapped(m: Meditation): (r: Meditation)
    ensures m.isTimerRunning ==>
      !r.isTimerRunning && !r.timerScheduled && r.sessionStarted == m.sessionStarted
    ensures !m.isTimerRunning && m.timeRemaining > 0 ==>
      r.isTimerRunning && r.sessionStarted && r.timerScheduled
    ensures !m.isTimerRunning && m.timeRemaining <= 0 ==> r == m
    ensures !m.isTimerRunning ==> (r.isTimerRunning <==> m.timeRemaining > 0)
    ensures r.timeRemaining == m.timeRemaining && r.durationField == m.durationField
    ensures r.healthSaves == m.healthSaves
    ensures Valid(m) ==> Valid(r)
  {
    if m.isTimerRunning then StopTimer(m) else StartTimer(m)
  }

  /** The completion routine: stop, one save request of 1800 minus the time remaining
      if a start was recorded, then back to the 30-minute default with no start. */
  function TimerCompleted(m: Meditation): (r: Meditation)
    ensures !r.isTimerRunning && !r.timerScheduled && !r.sessionStarted
    ensures r.timeRemaining == DefaultDuration && r.durationField == Some(30)
    ensures r.healthSaves == m.healthSaves +
      (if m.sessionStarted then [DefaultDuration - m.timeRemaining] else [])
    ensures Valid(r)
  {
    var t := StopTimer(m);
    var u := if t.sessionStarted
      then t.(healthSaves := t.healthSaves + [DefaultDuration - t.timeRemaining])
      else t;
    u.(timeRemaining := 30 * 60, durationField := Some(30), sessionStarted := false)
  }

  /** The one-second tick: one second off, and completion once none is left. */
  function UpdateTimer(m: Meditation): (r: Meditation)
    ensures m.timeRemaining - 1 > 0 ==> r == m.(timeRemaining := m.timeRemaining - 1)
    ensures m.timeRemaining - 1 <= 0 ==>
      && !r.isTimerRunning && !r.timerScheduled && !r.sessionStarted
      && r.timeRemaining == DefaultDuration && r.durationField == Some(30)
      && r.healthSaves == m.healthSaves +
           (if m.sessionStarted then [DefaultDuration - (m.timeRemaining - 1)] else [])
    ensures Valid(m) ==> Valid(r)
  {
    var t := m.(timeRemaining := m.timeRemaining - 1);
    if t.timeRemaining <= 0 then TimerCompleted(t) else t
  }

  /** The state after `n` seconds: the tick runs once a second while a timer is
      scheduled, and nothing happens once none is. */
  function Ticks(m: Meditation, n: nat): Meditation
    decreases n
  {
    if n == 0 || !m.timerScheduled then m else Ticks(UpdateTimer(m), n - 1)
  }

  /** A preset button sets the duration to its minutes; the tags are 0 to 3. */
  function PresetButtonTapped(m: Meditation, tag: int): (r: Meditation)
    requires 0 <= tag < |Presets|
    ensures r.timeRemaining in {300, 600, 1200, 1800}
    ensures r.durationField.Some? && r.timeRemaining == 60 * r.durationField.value
    ensures r == m.(timeRemaining := r.timeRemaining, durationField := r.durationField)
  {
    var minutes := Presets[tag];
    m.(timeRemaining := minutes * 60, durationField := Some(minutes))
  }

  /** Editing the text field: a text that reads as an integer sets the duration to that
      many minutes, with no bounds; any other text leaves the duration alone. */
  function DurationTextFieldChanged(m: Meditation, parsed: Option<int>): (r: Meditation)
    ensures r.durationField == parsed
    ensures parsed.None? ==> r.timeRemaining == m.timeRemaining
    ensures parsed.Some? ==> r.timeRemaining == 60 * parsed.value
    ensures r == m.(timeRemaining := r.timeRemaining, durationField := parsed)
  {
    match parsed
    case None => m.(durationField := None)
    case Some(minutes) => m.(timeRemaining := minutes * 60, durationField := Some(minutes))
  }

  /** The minutes the stepper moves to from `minutes`: one more, kept within 1 to 60. */
  function StepperMinutes(minutes: int): int {
    if minutes + 1 > 60 then 60 else if minutes + 1 < 1 then 1 else minutes + 1
  }

  /** The stepper adds a minute to the field's value, clamped to 1..60 minutes, and
      sets the duration to it; it does nothing when the field does not parse. */
  function StepperTapped(m: Meditation): (r: Meditation)
    ensures m.durationField.None? ==> r == m
    ensures m.durationField.Some? ==>
      && 60 <= r.timeRemaining <= 3600
      && r.durationField == Some(r.timeRemaining / 60) && r.timeRemaining % 60 == 0
      && (0 <= m.durationField.value < 60 ==> r.timeRemaining == 60 * (m.durationField.value + 1))
      && (m.durationField.value >= 60 ==> r.timeRemaining == 3600)
      && (m.durationField.value < 0 ==> r.timeRemaining == 60)
    ensures r == m.(timeRemaining := r.timeRemaining, durationField := r.durationField)
  {
    match m.durationField
    case None => m
    case Some(minutes) =>
      var clamped := StepperMinutes(minutes);
      m.(timeRemaining := clamped * 60, durationField := Some(clamped))
  }

  /** A running session with `t` >= 1 seconds left, left alone: for `n` < `t` seconds
      it keeps running with `t - n` left and nothing saved; at `t` seconds it has
      completed, made exactly one save of 1800 seconds, gone back to the 30-minute
      default and cancelled its timer, so no later second changes anything. */
  lemma {:induction false} Countdown(m: Meditation, n: nat)
    requires Valid(m) && m.isTimerRunning && m.timeRemaining >= 1
    ensures var r := Ticks(m, n);
      && Valid(r)
      && (n < m.timeRemaining ==> r == m.(timeRemaining := m.timeRemaining - n))
      && (n >= m.timeRemaining ==>
            && !r.isTimerRunning && !r.timerScheduled && !r.sessionStarted
            && r.timeRemaining == DefaultDuration && r.durationField == Some(30)
            && r.healthSaves == m.healthSaves + [DefaultDuration])
    decreases n
  {
    if n > 0 {
      var u := UpdateTimer(m);
      if m.timeRemaining == 1 {
        assert Ticks(u, n - 1) == u;
      } else {
        Countdown(u, n - 1);
      }
    }
  }

  /** A session started from idle with `t` > 0 seconds set makes exactly one health
      save, of 1800 seconds whatever `t` was, when `t` seconds have passed, and then
      accepts a fresh start. */
  lemma SessionSavesOnce(m: Meditation, n: nat)
    requires Valid(m) && !m.isTimerRunning && m.timeRemaining > 0
    ensures var r := Ticks(StartTimer(m), n);
      && (r.isTimerRunning <==> n < m.timeRemaining)
      && r.healthSaves == m.healthSaves + (if n < m.timeRemaining then [] else [DefaultDuration])
      && (n >= m.timeRemaining ==> StartTimer(r).isTimerRunning)
  {
    Countdown(StartTimer(m), n);
  }

  /** Each tick of a live timer lowers the time by exactly one, and saves exactly when
      the time reaches zero or below: a running session always has a recorded start,
      so every completion by tick makes one save. */
  lemma TickSaves(m: Meditation)
    requires Valid(m) && m.timerScheduled
    ensures var r := UpdateTimer(m);
      && Valid(r)
      && (m.timeRemaining - 1 <= 0 ==>
            r.healthSaves == m.healthSaves + [DefaultDuration - (m.timeRemaining - 1)]
            && r.timeRemaining == DefaultDuration && !r.isTimerRunning)
      && (m.timeRemaining - 1 > 0 ==>
            r == m.(timeRemaining := m.timeRemaining - 1))
  {
  }

  /** Stopping is idempotent, never saves, and once stopped no stray tick changes
      anything. */
  lemma StopIsFinal(m: Meditation, n: nat)
    ensures StopTimer(StopTimer(m)) == StopTimer(m)
    ensures Ticks(StopTimer(m), n) == StopTimer(m)
    ensures StopTimer(m).healthSaves == m.healthSaves
  {
  }

  /** A health save happens only through completion: starting, stopping and the three
      duration inputs never add one. */
  lemma OnlyCompletionSaves(m: Meditation, parsed: Option<int>, tag: int)
    requires 0 <= tag < |Presets|
    ensures StartButtonTapped(m).healthSaves == m.healthSaves
    ensures PresetButtonTapped(m, tag).healthSaves == m.healthSaves
    ensures DurationTextFieldChanged(m, parsed).healthSaves == m.healthSaves
    ensures StepperTapped(m).healthSaves == m.healthSaves
  {
  }

  /** Editing the duration while running is not blocked: setting 0 minutes mid-session
      makes the next tick complete the session and report 1801 seconds. */
  lemma EditWhileRunning(m: Meditation)
    requires Valid(m) && m.isTimerRunning
    ensures var r := UpdateTimer(DurationTextFieldChanged(m, Some(0)));
      r.healthSaves == m.healthSaves + [1801] && !r.isTimerRunning
  {
  }
}

=== FILE: option.dfy ===
/** An optional value, for Swift's optionals. */
module Options {
  datatype Option<T> = None | Some(value: T)
}

=== FILE: timer_display.dfy ===
/** The meditation screen's clock text: the remaining seconds split into minutes and
    seconds with Swift's integer division and remainder (both round toward zero), each
    printed with the C format "%02d" and joined by a colon. */
module TimerDisplay {

  /** Swift's `/` on Int: the quotient rounded toward zero. */
  function TruncDiv(a: int, b: int): (q: int)
    requires b > 0
    ensures a >= 0 ==> 0 <= a - b * q < b
    ensures a < 0 ==> -b < a - b * q <= 0
  {
    if a >= 0 then a / b else -((-a) / b)
  }

  /** Swift's `%` on Int: the remainder takes the sign of the dividend. */
  function TruncRem(a: int, b: int): (r: int)
    requires b > 0
    ensures a == b * TruncDiv(a, b) + r
    ensures -b < r < b
    ensures (a >= 0 ==> r >= 0) && (a <= 0 ==> r <= 0)
  {
    a - b * TruncDiv(a, b)
  }

  const TwoTo31: int := 0x8000_0000

  /** What "%d" reads from a Swift Int: a C int, that is the low 32 bits taken as a
      two's-complement number. */
  function AsCInt(n: int): (r: int)
    ensures -TwoTo31 <= r < TwoTo31
    ensures (n - r) % (2 * TwoTo31) == 0
    ensures -TwoTo31 <= n < TwoTo31 ==> r == n
  {
    var low := n % (2 * TwoTo31);
    if low >= TwoTo31 then low - 2 * TwoTo31 else low
  }

  predicate IsDigit(c: char) {
    '0' <= c <= '9'
  }

  predicate AllDigits(s: string) {
    forall i | 0 <= i < |s| :: IsDigit(s[i])
  }

  function DigitChar(d: int): (c: char)
    requires 0 <= d < 10
    ensures IsDigit(c) && c as int - '0' as int == d
  {
    (d + '0' as int) as char
  }

  /** The decimal digits of a natural number, without leading zeros. */
  function Decimal(n: nat): (s: string)
    ensures AllDigits(s)
    ensures 1 <= |s|
    ensures |s| == 1 <==> n < 10
    ensures |s| == 2 <==> 10 <= n < 100
    ensures n >= 10 ==> s[0] != '0'
    decreases n
  {
    if n < 10 then [DigitChar(n)] else Decimal(n / 10) + [DigitChar(n % 10)]
  }

  /** The value of a string of decimal digits (leading zeros allowed). */
  function DigitsValue(s: string): nat
    requires AllDigits(s)
    decreases |s|
  {
    if s == [] then 0
    else DigitsValue(s[..|s| - 1]) * 10 + (s[|s| - 1] as int - '0' as int)
  }

  /** "%02d": at least two characters, a non-negative number padded with a leading
      zero, a negative one printed with its minus sign (which already makes two). */
  function Pad2(n: int): (s: string)
    ensures |s| >= 2
    ensures n >= 0 ==> AllDigits(s) && DigitsValue(s) == n
    ensures n < 0 ==> |s| >= 2 && s[0] == '-'
    ensures 0 <= n < 100 <==> (|s| == 2 && AllDigits(s))
  {
    DecimalValue(if n < 0 then -n else n);
    if n < 0 then "-" + Decimal(-n)
    else if n < 10 then "0" + Decimal(n)
    else Decimal(n)
  }

  /** The rest of "%02d": a negative number is a minus sign followed by the digits of
      its magnitude, a one-digit negative takes exactly two characters, and no number
      of two or more digits has a leading zero. */
  lemma Pad2Digits(n: int)
    ensures var s := Pad2(n);
      && (n < 0 ==> AllDigits(s[1..]) && DigitsValue(s[1..]) == -n)
      && (n >= 10 ==> s[0] != '0')
      && (n <= -10 ==> s[1] != '0')
      && (-10 < n < 0 ==> |s| == 2)
  {
    if n < 0 {
      DecimalValue(-n);
      assert Pad2(n)[1..] == Decimal(-n);
    }
  }

  /** The label text for `t` seconds remaining: String(format: "%02d:%02d") of the
      minutes and seconds, each read by "%d" as a C int. */
  function Format(t: int): (s: string)
    ensures |s| >= 5
    ensures 0 <= t < 6000 ==> |s| == 5 && s[2] == ':' && AllDigits(s[..2]) && AllDigits(s[3..])
  {
    Pad2(AsCInt(TruncDiv(t, 60))) + ":" + Pad2(AsCInt(TruncRem(t, 60)))
  }

  /** Reads a clock text back as seconds: everything before the last three characters
      is the minutes, the last two the seconds. */
  function ClockValue(s: string): int
    requires |s| >= 3 && AllDigits(s[..|s| - 3]) && AllDigits(s[|s| - 2..])
  {
    60 * DigitsValue(s[..|s| - 3]) + DigitsValue(s[|s| - 2..])
  }

  lemma {:induction false} DecimalValue(n: nat)
    ensures DigitsValue(Decimal(n)) == n
    decreases n
  {
    if n >= 10 {
      DecimalValue(n / 10);
      var s := Decimal(n);
      assert s[..|s| - 1] == Decimal(n / 10);
    }
  }

  /** For a non-negative time whose minutes fit a C int, the label is minutes, a
      colon and two digits of seconds; it reads back as the same number of seconds,
      and it is the five characters "MM:SS" exactly when the time is under 100
      minutes. */
  lemma FormatRoundTrip(t: int)
    requires 0 <= t < 60 * TwoTo31
    ensures var s := Format(t);
      && |s| >= 5 && s[|s| - 3] == ':'
      && AllDigits(s[..|s| - 3]) && AllDigits(s[|s| - 2..])
      && ClockValue(s) == t
      && (|s| == 5 <==> t < 6000)
  {
    var m, r := AsCInt(TruncDiv(t, 60)), AsCInt(TruncRem(t, 60));
    var s := Format(t);
    assert s == Pad2(m) + ":" + Pad2(r);
    assert |Pad2(r)| == 2;
    assert s[..|s| - 3] == Pad2(m);
    assert s[|s| - 2..] == Pad2(r);
  }

  /** A negative time (reachable by typing a negative duration) shows a minus sign in
      the seconds, and in the minutes once it reaches a whole minute. */
  lemma NegativeDisplay()
    ensures Format(-5) == "00:-5"
    ensures Format(-300) == "-5:00"
    ensures Format(-65) == "-1:-5"
  {
    assert Decimal(5) == "5";
    assert Decimal(0) == "0";
    assert Decimal(1) == "1";
  }

  /** Minutes beyond a C int wrap: 3000000000 minutes typed into the duration field
      show as -1294967296 minutes. */
  lemma WideMinutesWrap()
    ensures AsCInt(3000000000) == -1294967296
    ensures Format(3000000000 * 60) == Pad2(-1294967296) + ":00"
  {
    assert TruncDiv(3000000000 * 60, 60) == 3000000000;
    assert TruncRem(3000000000 * 60, 60) == 0;
    assert Pad2(AsCInt(0)) == "00" by {
      assert Decimal(0) == "0";
    }
  }
}
